=== FILE: README.md ===
# Docdata status-report reconciliation, in Dafny

This project models the reconciliation engine of the Docdata payment
integration for django-oscar. The engine lives in class `Interface` of
`oscar_docdata/interface.py`. A status report from the Docdata gateway holds
approximate totals for an order (its "payment cluster") and zero or more
payment entries. A pass of `_store_report` folds one report into the local
state:

- it stores the totals on the `DocdataOrder`;
- it upserts one `DocdataPayment` line per payment entry, in ascending payment-id order;
- it decides a new order status and assigns it;
- it emits `payment_added`, `payment_updated` and `order_status_changed` events.

Modules:

- `Report` (report.dfy): the report, the gateway's authorization status codes and the order status choices.
- `Accountant` (accountant.dfy): `_to_decimal` and `_get_payment_sum`.
- `Ordering` (ordering.dfy): the stable sort of payment entries by id.
- `Resolver` (resolver.dfy): the pure status decisions. These are `status_mapping`, the margin and the decision table of `_process_authorized_payment`, the fallback on the last entry, and the heuristics for a report without payments.
- `Store` (store.dfy): the order (a class whose status and totals a pass updates), the payment-line store (a class over a map keyed by payment id) and the events.
- `Interface` (interface.dfy): pure functions that specify a pass (`Upsert`, `RunLines`, `LinesOutcome`, `PassOutcome`), and the methods `SetStatus`, `UpsertPayment`, `StoreReportLines` and `StoreReport`. Each method is proved to perform exactly what those functions describe.
- `PassProperties` (properties.dfy): properties of a whole pass. These are processing order, the effect on the store, the events, Case B resolution, idempotence, determinism under reordering and non-regression.

Modelling choices:

- Amounts are integer counts of hundredths (cents).
- The status a caller asks for (`indented_status`) is a `StatusValue`: a recognised order status, or any other string. Python's `intended or fallback` treats both None and the empty string as missing.
- `now()` is a parameter. Timestamps are in microseconds.
- Signals are returned as a list of events, in the order they would be sent.

## Model

| member | source | states |
|---|---|---|
| `Resolver.StatusMapping` | oscar_docdata/interface.py:30-44 | Every code's outcome, as an iff per status. UNKNOWN exactly for a code outside the table. NEW exactly for new and started. IN_PROGRESS exactly for redirected-for-authentication. PENDING exactly for authorization-requested, authorized and paid. CANCELLED exactly for cancelled and closed-cancelled. CHARGED_BACK exactly for charged-back and confirmed-chargedback. PAID exactly for confirmed-paid and closed-success. |
| `Accountant.ToDecimal` | oscar_docdata/interface.py:637-639 | The member is the identity on the count of hundredths the gateway sent: it has no contract of its own, and the division by 100 is left out. Its one stated property is `ToDecimalIgnoresCurrency`. |
| `Accountant.ToDecimalIgnoresCurrency` | oscar_docdata/interface.py:637-639 | The conversion reads the value alone and ignores the currency attribute (see also line 346). |
| `Accountant.GetPaymentSum` | oscar_docdata/interface.py:485-499 | The accumulator loop returns the running sum of the amounts of the items whose status is the success status. |
| `Accountant.SuccessSumIsMatchingTotal` | oscar_docdata/interface.py:491-495 | The running sum equals the plain total of the items carrying the success status: exactly those are counted, in any block. |
| `Accountant.NoSuccessSumsToZero` | oscar_docdata/interface.py:489-499 | A block with no successful item sums to 0, and so does an absent block. |
| `Accountant.SuccessSumAppend` | oscar_docdata/interface.py:493-495 | The sum is additive over a split of the block. |
| `Ordering.SortById` | oscar_docdata/interface.py:318-319 | The processing order holds as many entries as the report. Its order and stability are stated by the lemmas below. |
| `Ordering.SortProperties` | oscar_docdata/interface.py:316-319 | The processing order is sorted by ascending id and is a permutation of the report's entries. |
| `Ordering.SortStrict` | oscar_docdata/interface.py:316-319 | With distinct ids the processing order is strictly increasing in id. |
| `Ordering.DistinctIdsPermutation` | oscar_docdata/interface.py:316-319 | Distinct ids stay distinct under any reordering of the entries. |
| `Ordering.SortIsStable` | oscar_docdata/interface.py:316-319 | The sort is stable: for every id, the entries carrying it appear in the sorted sequence in the order the report gave them. That order decides which entry the fallback reads and which line a repeated id leaves. |
| `Ordering.SortIgnoresInputOrder` | oscar_docdata/interface.py:316-319 | Two reports holding the same entries with distinct ids, in any order, are processed in the same order. |
| `Resolver.Margin` | oscar_docdata/interface.py:521-529 | A margin other than 0 arises only through a currency conversion: the order currency is the exchanged-to currency and some payment is in another currency. It then equals the configured margin for that currency and lies below the registered total. When a conversion exists and the configured margin is below the registered total, that margin is used. |
| `Resolver.MarginIgnoresOrder` | oscar_docdata/interface.py:522-525 | The margin depends on which payments the report holds, not on their order. |
| `Resolver.AuthorizedDecision` | oscar_docdata/interface.py:540-621 | The decision table, as an iff for each outcome. Below the threshold (registered minus margin) it returns None. At or above it: PAID when the net sum reaches the threshold; PAID_REFUNDED for a net sum strictly between 0 and the threshold; UNKNOWN for a negative net sum; REFUNDED when the net sum is 0 and everything was refunded; CHARGED_BACK when the net sum is 0 and everything was charged back but not refunded. Otherwise (a net sum of 0 with a mixed reversal) it returns None. |
| `Resolver.ProcessAuthorizedPayment` | oscar_docdata/interface.py:502-621 | The sub-decision of an AUTHORIZED entry, with the margin applied. It decides something only when the capture reaches the registered total less the margin. It is PAID exactly when both the capture and the net sum reach that threshold. Without a currency conversion the threshold is the registered total itself. Every decision is one of PAID, CHARGED_BACK, REFUNDED, PAID_REFUNDED or UNKNOWN. |
| `Resolver.FullReversalIsUnambiguous` | oscar_docdata/interface.py:586-604 | REFUNDED implies nothing was charged back, and CHARGED_BACK implies nothing was refunded. Captured equal to both charged-back and refunded never yields either, so the refund check winning over the chargeback check never decides anything. |
| `Resolver.PaidRefundedIsPartialReversal` | oscar_docdata/interface.py:605-607 | PAID_REFUNDED means the threshold was captured and a positive part, less than the capture, was refunded or charged back. |
| `Resolver.MixedReversalIsUndecided` | oscar_docdata/interface.py:556-604 | A full reversal split between a refund and a chargeback decides nothing. |
| `Resolver.DecisionExamples` | oscar_docdata/interface.py:540-619 | Worked cases of the table: paid, partial refund, chargeback, refund, under-captured, and within or outside a 50-cent margin. |
| `Resolver.FallbackStatus` | oscar_docdata/interface.py:441-458 | The status mapping of the last entry, except that an EXPIRED or CANCELLED order is never sent back to NEW or IN_PROGRESS. The result differs from the mapping only in that case, and then it keeps the current status. |
| `Resolver.FallbackIsStable` | oscar_docdata/interface.py:453-458 | Applying the fallback to its own result changes nothing. |
| `Resolver.NoPaymentStatus` | oscar_docdata/interface.py:233-268 | Case A heuristics for a report without payments. CANCELLED stays CANCELLED. An EXPIRED order with activity stays EXPIRED. With no activity, an order older than 21 days gets the intended status or EXPIRED, and a younger one the intended status or NEW. With activity, an order not expired or cancelled gets the intended status or NEW. |
| `Resolver.ExpiresOnlyInactiveOldOrders` | oscar_docdata/interface.py:241-255 | With no intended status, a non-expired order becomes EXPIRED exactly when it is not cancelled, all six activity totals are 0 and it is more than 21 days old. |
| `Store.CreateRaceAddsOnce` | oscar_docdata/interface.py:413-428 | Two inserts of the same new payment id leave one row holding the later write, and exactly one of them reports an insert. |
| `Store.SaveLineAsWritten` | oscar_docdata/interface.py:416-428 | As written, an insert that hits an existing row raises, and every other save is the insert-or-update. |
| `Store.CreateRaceRaisesAsWritten` | oscar_docdata/interface.py:416-428 | As written, the second of two racing inserts raises instead of updating. |
| `Store.PaymentStore.Get` | oscar_docdata/interface.py:360-369 | The lookup by payment id finds a line exactly when the store holds that id, and the line carries that id. |
| `Store.PaymentStore.Save` | oscar_docdata/interface.py:413-428 | The save files the line under its payment id. It reports an insert only when inserting an id the store did not hold, and keeps one line per id. |
| `Interface.Refresh` | oscar_docdata/interface.py:371-411 | The refreshed line holds the reported method, confidence level, amounts and status. It keeps its order and id, and leaves an agreeing line as it was. |
| `Interface.Upsert` | oscar_docdata/interface.py:354-435 | After the upsert the store holds the entry's line with the reported values, filed under its id. A new line belongs to this order, and an existing one keeps its order. Other ids are untouched. There is no event exactly when the stored line already agreed. Otherwise the event is payment_updated for a known id and payment_added for a new one. |
| `Interface.RunLines` | oscar_docdata/interface.py:321-437 | The loop keeps every line filed under its own payment id. |
| `Interface.AssignedStatus` | oscar_docdata/interface.py:279-294 | A recognised status is stored as given. An unrecognised one is stored as UNKNOWN. The current status leaves the order as it was. |
| `Interface.StatusChangedEvents` | oscar_docdata/interface.py:624-634 | A single order_status_changed event, exactly when the old and new status differ. |
| `Interface.SetStatus` | oscar_docdata/interface.py:279-294 | Returns true exactly when the requested status differs from the current one, and leaves the assigned status on the order. |
| `Interface.ProcessEntryStatus` | oscar_docdata/interface.py:336-351 | An AUTHORIZED entry with a sub-decision makes that decision the candidate, and any other entry keeps the candidate. The amount allocated is the authorised amount for an AUTHORIZED entry and 0 otherwise. |
| `Interface.UpsertPayment` | oscar_docdata/interface.py:354-435 | The step-by-step upsert (lookup or create, compare old and new values, save) leaves the store, the line and the event that `Upsert` describes. |
| `Interface.StoreReportLines` | oscar_docdata/interface.py:297-482 | The loop over the sorted entries leaves the store, the returned lines, the events and the status that `LinesOutcome` describes. |
| `Interface.StoreReport` | oscar_docdata/interface.py:218-276 | The order's totals are the report's totals. The order status, the store and the events are those `PassOutcome` describes. |
| `PassProperties.RunLinesReported` | oscar_docdata/interface.py:321-437 | The loop reports one line per entry, in entry order, each holding that entry's values. |
| `PassProperties.ReportedLinesFollowSortedEntries` | oscar_docdata/interface.py:316-482 | The returned lines follow the entries sorted by id, one per entry with its values, and are sorted by payment id. |
| `PassProperties.RunLinesCandidate` | oscar_docdata/interface.py:339-344 | After the loop the candidate is the sub-decision when some entry is AUTHORIZED and the sub-decision is not None. Otherwise the initial candidate is kept. |
| `PassProperties.LastSortedIsHighest` | oscar_docdata/interface.py:318-319 | The last entry in processing order, the one the fallback reads at line 451, belongs to the report and has the highest id. |
| `PassProperties.CaseBResolution` | oscar_docdata/interface.py:339-458 | With payments, the status is the sub-decision if any entry is AUTHORIZED and the sub-decision is not None. Otherwise it is the fallback on the entry with the highest id, and that entry is one of the report's. |
| `PassProperties.RunLinesStore` | oscar_docdata/interface.py:354-435 | For distinct ids, the store after the loop holds every entry's line with the reported values, under the order that created it. Lines of other ids are untouched. |
| `PassProperties.RunLinesEvents` | oscar_docdata/interface.py:413-435 | For distinct ids: at most one event per entry. Every event is payment_added for an id the store did not hold or payment_updated for one it held. Every new id gets a payment_added. |
| `PassProperties.RunLinesAppendsPaymentEvents` | oscar_docdata/interface.py:413-435 | For any entries, repeated ids included: each entry appends at most one event after those already listed, and never an order_status_changed one. |
| `PassProperties.RunLinesQuiet` | oscar_docdata/interface.py:382-413 | Entries whose lines already agree change nothing and emit nothing. |
| `PassProperties.PassUpsertsLines` | oscar_docdata/interface.py:316-435 | The line upsert of a whole pass with distinct ids. Every reported id ends up with one line holding the reported values. New lines belong to this order. Other lines are untouched. Events are classified against the store before the pass. |
| `PassProperties.ReplayLines` | oscar_docdata/interface.py:297-458 | For distinct ids, replaying the entries on the store and status the first pass left keeps the store, emits no line event and decides the same status. |
| `PassProperties.NoPaymentReplayStable` | oscar_docdata/interface.py:233-276 | Without payments, a second pass with the same inputs leaves the status where the first put it. |
| `PassProperties.ReplayIsSilent` | oscar_docdata/interface.py:218-276 | Idempotence: replaying the same report (same time and intended status, distinct ids) on the state a pass produced emits no event and changes neither the store nor the status. |
| `PassProperties.PassIgnoresEntryOrder` | oscar_docdata/interface.py:316-321 | The same report with its entries permuted (distinct ids) yields the same status, store and events. |
| `PassProperties.NoRegressionFromTerminal` | oscar_docdata/interface.py:246-268 | An EXPIRED or CANCELLED order never goes back to NEW or IN_PROGRESS unless the caller asks for it, whether or not the report has payments (the payment path is lines 453-458). It assumes an EXPIRED order is older than 21 days, which `ExpiredOnlyWhenOld` shows every pass keeps unless a caller asks for EXPIRED. |
| `PassProperties.ExpiredOnlyWhenOld` | oscar_docdata/interface.py:242-268 | If an EXPIRED order was already more than 21 days old at some earlier time, a pass leaves the order EXPIRED only when it is more than 21 days old now or the caller asked for EXPIRED. The payment path (lines 441-458) never produces EXPIRED on its own. |
| `PassProperties.YoungExpiredOrderReturnsToNew` | oscar_docdata/interface.py:249-257 | An EXPIRED order no older than 21 days, reported without payments or activity and with no intended status, is sent back to NEW. |
| `PassProperties.PassEventOrder` | oscar_docdata/interface.py:270-276 | For every report, repeated ids included: payment events come first, at most one per entry. order_status_changed comes last, exactly when the status changed, carrying the old and new status. |

## Left out

- Gateway calls and payment setup (`create_payment`, `get_create_payment_args`, `_store_create_success`, `get_payment_menu_url`, `start_payment`, and the client calls in `cancel_order` and `update_order`, lines 80-215) are transport and ORM plumbing. The model starts at `_store_report`, with the intended status as a parameter.
- `for_merchant` and the `InvalidMerchant` check are credential configuration, not reconciliation.
- Row locking (`select_for_update`), savepoints and transactions are not modelled. The store is a sequential map with insert-or-update. A racing insert is modelled only as the two-save lemma `CreateRaceAddsOnce`.
- Log-only checks have no effect on state and are left out: the unknown-status warning (lines 403-408) and the registered-vs-gross mismatch (lines 472-477). `DOCUMENTED_STATUS_VALUES` lives in gateway.py, which is not part of this model.
- The commented-out override block (lines 460-469) does nothing and is not modelled.
- `Accountant.ToDecimal` keeps an amount as its exact count of hundredths, so it leaves out the division by 100 and `Decimal`'s 28-digit context. `StoreReport` stores the order totals in hundredths too, where the source divides each by 100 (lines 225-232).
- Default column values of `DocdataPayment` come from models.py, which is not part of this model. A new line's placeholder columns are always overwritten before it is saved, so they never show.
- The comparison at line 339 against the literal 'AUTHORIZED' is modelled as a test for `DocdataClient.STATUS_AUTHORIZED`. The constant's value is in gateway.py, which is not part of this model.
- A report whose payment list is present but empty is treated as a report without payments. The source would take the payment path and fail at line 451 indexing an empty list.
- `PassProperties.ReplayIsSilent`, `PassProperties.PassUpsertsLines`, `PassProperties.PassIgnoresEntryOrder`, `PassProperties.RunLinesStore`, `PassProperties.RunLinesEvents` and `PassProperties.ReplayLines` assume distinct payment ids within one report. With a repeated id the later entry overwrites the earlier line, and the order of the two entries matters.
- `PassProperties.NoRegressionFromTerminal` assumes an EXPIRED order is older than 21 days. The source does not keep a younger EXPIRED order: with no payments and no activity it goes back to NEW (`YoungExpiredOrderReturnsToNew`). `ExpiredOnlyWhenOld` shows that such an order arises only when a caller asks for EXPIRED, which this file never does (the cancel flow asks for CANCELLED, lines 187-196).
- `Resolver.AuthorizedDecision` returns None not only when less than the threshold was captured. A fully reversed capture split between a refund and a chargeback also decides nothing, and the status then falls back to the status mapping.

## Findings

| source | as written | input that shows it | evidently intended | confidence | as-written member | corrected member |
|---|---|---|---|---|---|---|
| oscar_docdata/interface.py:422 | On an insert conflict, the warning formats `{0}` and `{1}` with a single argument. That raises before the fallback update at lines 426-428 runs. | Two passes that both find no line for payment id 7 and both insert it: the second save conflicts, and its recovery path raises | The conflicting insert becomes an update of the existing row, reported as payment_updated | high, not executed | `Store.CreateRaceRaisesAsWritten` | `Store.CreateRaceAddsOnce` |

=== FILE: accountant.dfy ===
/**
 * The totals accountant: converts gateway amounts and sums the successful
 * capture, refund and chargeback items of one payment entry.
 */
module Accountant {
  import opened Report

  /** Which block of an authorization is summed. */
  datatype SubKind = Capture | Refund | Chargeback

  function Block(a: Authorization, kind: SubKind): seq<SubItem>
  {
    match kind
    case Capture => a.capture
    case Refund => a.refund
    case Chargeback => a.chargeback
  }

  /**
   * A gateway amount as a two-decimal value. The value is kept as its exact
   * count of hundredths, so the conversion divides nothing and cannot round.
   */
  function ToDecimal(amount: Amount): int
  {
    amount.value
  }

  /** The conversion reads the value alone: the currency attribute plays no part. */
  lemma ToDecimalIgnoresCurrency(a: Amount, b: Amount)
    requires a.value == b.value
    ensures ToDecimal(a) == ToDecimal(b)
  {
  }

  /** The sum of the amounts of the items whose status is `success`, item by item from the left. */
  function SuccessSum(items: seq<SubItem>, success: string): int
  {
    if items == [] then 0
    else
      var last := items[|items| - 1];
      SuccessSum(items[..|items| - 1], success) + (if last.status == success then ToDecimal(last.amount) else 0)
  }

  /** The items whose status is `success`, in their order. */
  function Matching(items: seq<SubItem>, success: string): (r: seq<SubItem>)
    ensures forall i :: 0 <= i < |r| ==> r[i].status == success
    ensures forall x :: x in r <==> x in items && x.status == success
  {
    if items == [] then []
    else if items[0].status == success then [items[0]] + Matching(items[1..], success)
    else Matching(items[1..], success)
  }

  /** The plain sum of all amounts. */
  function AmountTotal(items: seq<SubItem>): int
  {
    if items == [] then 0 else ToDecimal(items[0].amount) + AmountTotal(items[1..])
  }

  lemma {:induction false} MatchingAppend(a: seq<SubItem>, b: seq<SubItem>, success: string)
    ensures Matching(a + b, success) == Matching(a, success) + Matching(b, success)
  {
    if a == [] {
      assert a + b == b;
    } else {
      assert (a + b)[1..] == a[1..] + b;
      MatchingAppend(a[1..], b, success);
    }
  }

  lemma {:induction false} AmountTotalAppend(a: seq<SubItem>, b: seq<SubItem>)
    ensures AmountTotal(a + b) == AmountTotal(a) + AmountTotal(b)
  {
    if a == [] {
      assert a + b == b;
    } else {
      assert (a + b)[1..] == a[1..] + b;
      AmountTotalAppend(a[1..], b);
    }
  }

  /**
   * The running sum counts exactly the items whose status is the success
   * status: it equals the plain total of the matching items, and every other
   * item contributes nothing.
   */
  lemma {:induction false} SuccessSumIsMatchingTotal(items: seq<SubItem>, success: string)
    ensures SuccessSum(items, success) == AmountTotal(Matching(items, success))
  {
    if items != [] {
      var init, last := items[..|items| - 1], items[|items| - 1];
      assert items == init + [last];
      SuccessSumIsMatchingTotal(init, success);
      MatchingAppend(init, [last], success);
      AmountTotalAppend(Matching(init, success), Matching([last], success));
    }
  }

  /** A block none of whose items succeeded, an absent block included, sums to 0. */
  lemma {:induction false} NoSuccessSumsToZero(items: seq<SubItem>, success: string)
    requires forall i :: 0 <= i < |items| ==> items[i].status != success
    ensures SuccessSum(items, success) == 0
  {
    if items != [] {
      NoSuccessSumsToZero(items[..|items| - 1], success);
    }
  }

  /** Summing two parts of a block separately and adding gives the sum of the block. */
  lemma {:induction false} SuccessSumAppend(a: seq<SubItem>, b: seq<SubItem>, success: string)
    ensures SuccessSum(a + b, success) == SuccessSum(a, success) + SuccessSum(b, success)
  {
    SuccessSumIsMatchingTotal(a + b, success);
    SuccessSumIsMatchingTotal(a, success);
    SuccessSumIsMatchingTotal(b, success);
    MatchingAppend(a, b, success);
    AmountTotalAppend(Matching(a, success), Matching(b, success));
  }

  /**
   * `_get_payment_sum`: the sum of the successful items of one block of a
   * payment's authorization, accumulated item by item.
   */
  method GetPaymentSum(payment: Payment, kind: SubKind, successStatus: string) returns (amount: int)
    ensures amount == SuccessSum(Block(payment.authorization, kind), successStatus)
  {
    amount := 0;
    var items := Block(payment.authorization, kind);
    var i := 0;
    while i < |items|
      invariant 0 <= i <= |items|
      invariant amount == SuccessSum(items[..i], successStatus)
    {
      assert items[..i + 1][..i] == items[..i];
      if items[i].status == successStatus {
        amount := amount + ToDecimal(items[i].amount);
      }
      i := i + 1;
    }
    assert items[..|items|] == items;
  }
}

=== FILE: interface.dfy ===
/**
 * The reconciliation pass of the Docdata interface: folds one status report
 * into one order and the payment-line store, and returns the change events
 * the pass emits, in the order the signals would be sent.
 *
 * The pure functions below specify a pass; the methods perform it step by
 * step and are proved to agree with them.
 */
module Interface {
  import opened Report
  import opened Accountant
  import opened Ordering
  import opened Resolver
  import opened Store

  // ---------------------------------------------------------------------------
  // One payment line

  /** The entry's authorization status is AUTHORIZED. */
  predicate IsAuthorized(p: Payment)
  {
    p.authorization.status == StatusAuthorized
  }

  /** amount_allocated: the authorised amount of an AUTHORIZED entry, else 0. */
  function Allocated(p: Payment): int
  {
    if IsAuthorized(p) then ToDecimal(p.authorization.amount) else 0
  }

  /** The stored line already holds everything the report says about the entry. */
  predicate Agrees(line: PaymentLine, p: Payment)
  {
    && line.paymentMethod == p.paymentMethod
    && line.confidenceLevel == p.authorization.confidenceLevel
    && line.amountAllocated == Allocated(p)
    && line.amountDebited == SuccessSum(p.authorization.capture, CapturedStatus)
    && line.amountRefunded == SuccessSum(p.authorization.refund, CapturedStatus)
    && line.amountChargeback == SuccessSum(p.authorization.chargeback, ChargedStatus)
    && line.status == p.authorization.status
  }

  /** The line with the reported method, confidence level, amounts and status written into it. */
  function Refresh(line: PaymentLine, p: Payment): (r: PaymentLine)
    ensures Agrees(r, p)
    ensures r.orderKey == line.orderKey && r.paymentId == line.paymentId
    ensures Agrees(line, p) ==> r == line
  {
    line.(
      paymentMethod := p.paymentMethod,
      confidenceLevel := p.authorization.confidenceLevel,
      amountAllocated := Allocated(p),
      amountDebited := SuccessSum(p.authorization.capture, CapturedStatus),
      amountRefunded := SuccessSum(p.authorization.refund, CapturedStatus),
      amountChargeback := SuccessSum(p.authorization.chargeback, ChargedStatus),
      status := p.authorization.status)
  }

  /**
   * A line as first constructed for a payment id: the order, the id and the
   * method come from the report; the other columns hold placeholders that are
   * overwritten before the line is saved.
   */
  function BlankLine(orderKey: string, p: Payment): PaymentLine
  {
    PaymentLine(orderKey, p.id, p.paymentMethod, "", 0, 0, 0, 0, OtherStatus(""))
  }

  datatype Upserted = Upserted(lines: map<nat, PaymentLine>, line: PaymentLine, event: Option<Event>)

  /**
   * Reconciling one payment entry with the store: create the line on first
   * sighting, otherwise refresh the existing one; save and emit one event
   * exactly when the line was created or changed.
   */
  function Upsert(lines: map<nat, PaymentLine>, orderKey: string, p: Payment): (u: Upserted)
    requires WellKeyed(lines)
    ensures WellKeyed(u.lines)
    ensures Agrees(u.line, p) && u.line.paymentId == p.id
    ensures p.id in u.lines && u.lines[p.id] == u.line
    ensures u.line.orderKey == if p.id in lines then lines[p.id].orderKey else orderKey
    ensures forall id :: id in lines && id != p.id ==> id in u.lines && u.lines[id] == lines[id]
    ensures forall id :: id in u.lines && id != p.id ==> id in lines
    ensures u.event.None? <==> p.id in lines && Agrees(lines[p.id], p)
    ensures u.event.None? ==> u.lines == lines
    ensures u.event.Some? ==>
              u.event.value == (if p.id in lines then PaymentUpdated(u.line) else PaymentAdded(u.line))
  {
    if p.id in lines then
      var existing := lines[p.id];
      var line := Refresh(existing, p);
      if Agrees(existing, p) then Upserted(lines, line, None)
      else
        var saved := SaveLine(lines, line, false);
        Upserted(saved.lines, line, Some(PaymentUpdated(line)))
    else
      var line := Refresh(BlankLine(orderKey, p), p);
      var saved := SaveLine(lines, line, true);
      Upserted(saved.lines, line, Some(if saved.added then PaymentAdded(line) else PaymentUpdated(line)))
  }

  // ---------------------------------------------------------------------------
  // The loop over the payment entries

  datatype LoopState = LoopState(
    lines: map<nat, PaymentLine>,
    reported: seq<PaymentLine>,
    events: seq<Event>,
    candidate: Option<OrderStatus>)

  function EventList(e: Option<Event>): seq<Event>
  {
    if e.Some? then [e.value] else []
  }

  /**
   * One iteration: an AUTHORIZED entry whose sub-decision is not None makes it
   * the candidate status; the entry's line is reconciled and reported.
   */
  function LineStep(st: LoopState, p: Payment, orderKey: string, decision: Option<OrderStatus>): LoopState
    requires WellKeyed(st.lines)
  {
    var u := Upsert(st.lines, orderKey, p);
    var candidate := if IsAuthorized(p) && decision.Some? then decision else st.candidate;
    LoopState(u.lines, st.reported + [u.line], st.events + EventList(u.event), candidate)
  }

  /** The loop run over the entries `ps`, from the state `st0`. */
  function RunLines(st0: LoopState, ps: seq<Payment>, orderKey: string, decision: Option<OrderStatus>): (st: LoopState)
    requires WellKeyed(st0.lines)
    ensures WellKeyed(st.lines)
    decreases |ps|
  {
    if ps == [] then st0
    else LineStep(RunLines(st0, ps[..|ps| - 1], orderKey, decision), ps[|ps| - 1], orderKey, decision)
  }

  datatype LinesResult = LinesResult(
    status: OrderStatus,
    lines: map<nat, PaymentLine>,
    reported: seq<PaymentLine>,
    events: seq<Event>)

  /** Initial loop state over the store's lines. */
  function Start(lines: map<nat, PaymentLine>): LoopState
  {
    LoopState(lines, [], [], None)
  }

  /**
   * The outcome of `_store_report_lines` for a report with payment entries:
   * the entries are processed in ascending id order; without a candidate the
   * fallback decides on the last (highest id) entry.
   */
  function LinesOutcome(lines0: map<nat, PaymentLine>, orderKey: string, orderCurrency: string,
                        current: OrderStatus, report: StatusReport, successMargins: map<string, int>): LinesResult
    requires WellKeyed(lines0)
    requires report.payments != []
  {
    var sorted := SortById(report.payments);
    var decision := ProcessAuthorizedPayment(orderCurrency, report, successMargins);
    var st := RunLines(Start(lines0), sorted, orderKey, decision);
    var status := if st.candidate.Some? then st.candidate.value
                  else FallbackStatus(sorted[|sorted| - 1].authorization.status, current);
    LinesResult(status, st.lines, st.reported, st.events)
  }

  // ---------------------------------------------------------------------------
  // Status assignment and the whole pass

  /** The status `_set_status` leaves on an order whose status is `current`. */
  function AssignedStatus(current: OrderStatus, newStatus: StatusValue): (r: OrderStatus)
    ensures newStatus.Recognized? ==> r == newStatus.status
    ensures newStatus.Unrecognized? ==> r == Unknown
    ensures newStatus == Recognized(current) ==> r == current
  {
    if newStatus == Recognized(current) then current
    else if newStatus.Recognized? then newStatus.status
    else Unknown
  }

  /** `order_status_changed`: an event only when the status really changed. */
  function StatusChangedEvents(oldStatus: OrderStatus, newStatus: OrderStatus): (r: seq<Event>)
    ensures r == [] <==> oldStatus == newStatus
    ensures r != [] ==> r == [OrderStatusChanged(oldStatus, newStatus)]
  {
    if oldStatus == newStatus then [] else [OrderStatusChanged(oldStatus, newStatus)]
  }

  /** The totals stored on the order: every report total, converted exactly. */
  function SnapshotOf(t: Totals): TotalsSnapshot
  {
    TotalsSnapshot(t.registered, t.shopperPending, t.acquirerPending, t.acquirerApproved,
                   t.captured, t.refunded, t.chargedback)
  }

  datatype PassResult = PassResult(status: OrderStatus, lines: map<nat, PaymentLine>, events: seq<Event>)

  /** The status a pass asks `_set_status` for. */
  function RequestedStatus(lines0: map<nat, PaymentLine>, orderKey: string, orderCurrency: string,
                           created: int, current: OrderStatus, report: StatusReport,
                           intended: Option<StatusValue>, now: int, successMargins: map<string, int>): StatusValue
    requires WellKeyed(lines0)
  {
    if report.payments != [] then
      Recognized(LinesOutcome(lines0, orderKey, orderCurrency, current, report, successMargins).status)
    else
      NoPaymentStatus(report.approximateTotals, current, intended, created, now)
  }

  /**
   * `_store_report`: the order's final status, the store's lines and the
   * events of one pass. Line events come first, in entry order; the status
   * event, if any, comes last.
   */
  function PassOutcome(lines0: map<nat, PaymentLine>, orderKey: string, orderCurrency: string,
                       created: int, current: OrderStatus, report: StatusReport,
                       intended: Option<StatusValue>, now: int, successMargins: map<string, int>): PassResult
    requires WellKeyed(lines0)
  {
    var requested := RequestedStatus(lines0, orderKey, orderCurrency, created, current, report, intended, now, successMargins);
    var final := AssignedStatus(current, requested);
    if report.payments != [] then
      var lr := LinesOutcome(lines0, orderKey, orderCurrency, current, report, successMargins);
      PassResult(final, lr.lines, lr.events + StatusChangedEvents(current, final))
    else
      PassResult(final, lines0, StatusChangedEvents(current, final))
  }

  // ---------------------------------------------------------------------------
  // The methods

  /**
   * `_set_status`: a status equal to the current one changes nothing and
   * returns false; otherwise the status is stored, an unrecognised one as
   * UNKNOWN, and the result is true.
   */
  method SetStatus(order: DocdataOrder, newStatus: StatusValue) returns (changed: bool)
    modifies order`status
    ensures changed <==> newStatus != Recognized(old(order.status))
    ensures order.status == AssignedStatus(old(order.status), newStatus)
  {
    var oldStatus := order.status;
    if Recognized(oldStatus) != newStatus {
      var stored := if newStatus.Recognized? then newStatus.status else Unknown;
      order.status := stored;
      changed := true;
    } else {
      changed := false;
    }
  }

  /** Lines 354 to 435 of `_store_report_lines`: the upsert of one entry's line. */
  method UpsertPayment(order: DocdataOrder, store: PaymentStore, payment: Payment, amountAllocated: int)
    returns (ddpayment: PaymentLine, event: Option<Event>)
    requires store.Valid()
    requires amountAllocated == Allocated(payment)
    modifies store
    ensures store.Valid()
    ensures Upserted(store.lines, ddpayment, event) == Upsert(old(store.lines), order.orderKey, payment)
  {
    var existing := store.Get(payment.id);
    var updated, added := false, false;
    if existing.None? {
      ddpayment := BlankLine(order.orderKey, payment);
      added := true;
    } else {
      ddpayment := existing.value;
    }

    if payment.paymentMethod != ddpayment.paymentMethod {
      ddpayment := ddpayment.(paymentMethod := payment.paymentMethod);
      updated := true;
    }

    var oldValues := (ddpayment.confidenceLevel, ddpayment.amountAllocated, ddpayment.amountChargeback,
                      ddpayment.amountRefunded, ddpayment.amountDebited);
    var debited := GetPaymentSum(payment, Capture, CapturedStatus);
    var refunded := GetPaymentSum(payment, Refund, CapturedStatus);
    var chargeback := GetPaymentSum(payment, Chargeback, ChargedStatus);
    ddpayment := ddpayment.(
      confidenceLevel := payment.authorization.confidenceLevel,
      amountAllocated := amountAllocated,
      amountDebited := debited,
      amountRefunded := refunded,
      amountChargeback := chargeback);
    var newValues := (ddpayment.confidenceLevel, ddpayment.amountAllocated, ddpayment.amountChargeback,
                      ddpayment.amountRefunded, ddpayment.amountDebited);
    if oldValues != newValues {
      updated := true;
    }

    if ddpayment.status != payment.authorization.status {
      ddpayment := ddpayment.(status := payment.authorization.status);
      updated := true;
    }

    event := None;
    if added || updated {
      added := store.Save(ddpayment, added);
      event := Some(if added then PaymentAdded(ddpayment) else PaymentUpdated(ddpayment));
    }
  }

  /**
   * Lines 336-351 of `_store_report_lines`: an AUTHORIZED entry whose
   * sub-decision is not None makes that decision the candidate status, and an
   * AUTHORIZED entry has its authorised amount allocated; any other entry
   * leaves the candidate alone and is allocated nothing.
   */
  method ProcessEntryStatus(order: DocdataOrder, report: StatusReport, successMargins: map<string, int>,
                            payment: Payment, candidate: Option<OrderStatus>)
    returns (newCandidate: Option<OrderStatus>, amountAllocated: int)
    ensures var decision := ProcessAuthorizedPayment(order.currency, report, successMargins);
            newCandidate == if IsAuthorized(payment) && decision.Some? then decision else candidate
    ensures amountAllocated == Allocated(payment)
    ensures !IsAuthorized(payment) ==> amountAllocated == 0
  {
    newCandidate := candidate;
    var authorization := payment.authorization;
    if authorization.status == StatusAuthorized {
      var maybeNewStatus := ProcessAuthorizedPayment(order.currency, report, successMargins);
      if maybeNewStatus.Some? {
        newCandidate := maybeNewStatus;
      }
      amountAllocated := ToDecimal(authorization.amount);
    } else {
      amountAllocated := 0;
    }
  }

  /**
   * `_store_report_lines`: reconciles every payment entry, in ascending id
   * order, and decides the order status the entries call for.
   */
  method StoreReportLines(order: DocdataOrder, store: PaymentStore, report: StatusReport,
                          successMargins: map<string, int>)
    returns (newStatus: OrderStatus, ddpayments: seq<PaymentLine>, events: seq<Event>)
    requires store.Valid()
    requires report.payments != []
    modifies store
    ensures store.Valid()
    ensures LinesResult(newStatus, store.lines, ddpayments, events)
            == LinesOutcome(old(store.lines), order.orderKey, order.currency, order.status, report, successMargins)
  {
    var reportPayments := SortById(report.payments);
    ghost var decision := ProcessAuthorizedPayment(order.currency, report, successMargins);
    ghost var lines0 := store.lines;
    var candidate: Option<OrderStatus> := None;
    ddpayments, events := [], [];
    var i := 0;
    while i < |reportPayments|
      invariant 0 <= i <= |reportPayments|
      invariant store.Valid()
      invariant LoopState(store.lines, ddpayments, events, candidate)
                == RunLines(Start(lines0), reportPayments[..i], order.orderKey, decision)
    {
      var payment := reportPayments[i];
      assert reportPayments[..i + 1][..i] == reportPayments[..i];
      ghost var before := LoopState(store.lines, ddpayments, events, candidate);
      var amountAllocated;
      candidate, amountAllocated := ProcessEntryStatus(order, report, successMargins, payment, candidate);
      var ddpayment, event := UpsertPayment(order, store, payment, amountAllocated);
      events := events + EventList(event);
      ddpayments := ddpayments + [ddpayment];
      assert LoopState(store.lines, ddpayments, events, candidate) == LineStep(before, payment, order.orderKey, decision);
      i := i + 1;
    }
    assert reportPayments[..|reportPayments|] == reportPayments;

    if candidate.None? {
      newStatus := FallbackStatus(reportPayments[|reportPayments| - 1].authorization.status, order.status);
    } else {
      newStatus := candidate.value;
    }
  }

  /**
   * `_store_report`: stores the report's totals on the order, reconciles the
   * payment lines (or applies the no-payment heuristics), assigns the new
   * status and returns the events of the pass.
   */
  method StoreReport(order: DocdataOrder, store: PaymentStore, report: StatusReport,
                     intended: Option<StatusValue>, now: int, successMargins: map<string, int>)
    returns (events: seq<Event>)
    requires store.Valid()
    modifies order, store
    ensures store.Valid()
    ensures order.totals == SnapshotOf(report.approximateTotals)
    ensures PassResult(order.status, store.lines, events)
            == PassOutcome(old(store.lines), order.orderKey, order.currency, order.created, old(order.status),
                           report, intended, now, successMargins)
  {
    var totals := report.approximateTotals;
    order.totals := SnapshotOf(totals);

    var newStatus: StatusValue;
    var lineEvents: seq<Event> := [];
    if report.payments != [] {
      var status, ddpayments;
      status, ddpayments, lineEvents := StoreReportLines(order, store, report, successMargins);
      newStatus := Recognized(status);
    } else {
      newStatus := NoPaymentStatus(totals, order.status, intended, order.created, now);
    }

    var oldStatus := order.status;
    var statusChanged := SetStatus(order, newStatus);
    events := lineEvents;
    if statusChanged {
      events := events + StatusChangedEvents(oldStatus, order.status);
    }
  }
}

=== FILE: ordering.dfy ===
/**
 * The ordering of payment entries: the gateway gives them in no reliable
 * order, so they are sorted by ascending numeric id, stably, before they are
 * processed.
 */
module Ordering {
  import opened Report

  predicate SortedById(s: seq<Payment>)
  {
    forall i, j :: 0 <= i < j < |s| ==> s[i].id <= s[j].id
  }

  predicate StrictlySortedById(s: seq<Payment>)
  {
    forall i, j :: 0 <= i < j < |s| ==> s[i].id < s[j].id
  }

  /** No two entries of the report share a payment id. */
  predicate DistinctIds(s: seq<Payment>)
  {
    forall i, j :: 0 <= i < j < |s| ==> s[i].id != s[j].id
  }

  /** Inserts `p` before the first entry whose id is at least its own. */
  function Insert(p: Payment, s: seq<Payment>): (r: seq<Payment>)
    ensures |r| == |s| + 1
  {
    if s == [] || p.id <= s[0].id then [p] + s else [s[0]] + Insert(p, s[1..])
  }

  /**
   * The entries in ascending id order. Each entry is inserted in front of the
   * entries that followed it in the input, so entries with equal ids keep their
   * relative order, as a stable sort does.
   */
  function SortById(ps: seq<Payment>): (r: seq<Payment>)
    ensures |r| == |ps|
  {
    if ps == [] then [] else Insert(ps[0], SortById(ps[1..]))
  }

  lemma {:induction false} InsertPermutes(p: Payment, s: seq<Payment>)
    ensures multiset(Insert(p, s)) == multiset(s) + multiset{p}
  {
    if s != [] && p.id > s[0].id {
      InsertPermutes(p, s[1..]);
      assert s == [s[0]] + s[1..];
    }
  }

  lemma {:induction false} InsertSorted(p: Payment, s: seq<Payment>)
    requires SortedById(s)
    ensures SortedById(Insert(p, s))
  {
    if s != [] && p.id > s[0].id {
      InsertSorted(p, s[1..]);
      InsertPermutes(p, s[1..]);
      var r := Insert(p, s[1..]);
      forall k | 0 <= k < |r| ensures s[0].id <= r[k].id {
        assert r[k] in multiset(s[1..]) + multiset{p};
        if r[k] in multiset(s[1..]) {
          var j :| 0 <= j < |s[1..]| && s[1..][j] == r[k];
          assert s[1 + j] == r[k];
        }
      }
    }
  }

  /** The sort orders by id and is a permutation of its input. */
  lemma {:induction false} SortProperties(ps: seq<Payment>)
    ensures SortedById(SortById(ps))
    ensures multiset(SortById(ps)) == multiset(ps)
  {
    if ps != [] {
      SortProperties(ps[1..]);
      InsertSorted(ps[0], SortById(ps[1..]));
      InsertPermutes(ps[0], SortById(ps[1..]));
      assert ps == [ps[0]] + ps[1..];
    }
  }

  /** The entries of `s` whose id is `k`, in their order. */
  function WithId(s: seq<Payment>, k: nat): (r: seq<Payment>)
    ensures forall i :: 0 <= i < |r| ==> r[i].id == k
  {
    if s == [] then [] else (if s[0].id == k then [s[0]] else []) + WithId(s[1..], k)
  }

  /** Inserting `p` puts it in front of every entry with its own id. */
  lemma {:induction false} InsertKeepsIdOrder(p: Payment, s: seq<Payment>, k: nat)
    ensures WithId(Insert(p, s), k) == (if p.id == k then [p] else []) + WithId(s, k)
  {
    if s == [] || p.id <= s[0].id {
      assert ([p] + s)[1..] == s;
    } else {
      InsertKeepsIdOrder(p, s[1..], k);
      assert ([s[0]] + Insert(p, s[1..]))[1..] == Insert(p, s[1..]);
    }
  }

  /**
   * Stability: for every id, the entries carrying it appear in the sorted
   * sequence in the order the input gave them.
   */
  lemma {:induction false} SortIsStable(ps: seq<Payment>, k: nat)
    ensures WithId(SortById(ps), k) == WithId(ps, k)
  {
    if ps != [] {
      SortIsStable(ps[1..], k);
      InsertKeepsIdOrder(ps[0], SortById(ps[1..]), k);
    }
  }

  lemma {:induction false} InsertStrict(p: Payment, s: seq<Payment>)
    requires StrictlySortedById(s)
    requires forall q :: q in s ==> q.id != p.id
    ensures StrictlySortedById(Insert(p, s))
  {
    if s != [] && p.id > s[0].id {
      InsertStrict(p, s[1..]);
      InsertPermutes(p, s[1..]);
      var r := Insert(p, s[1..]);
      forall k | 0 <= k < |r| ensures s[0].id < r[k].id {
        assert r[k] in multiset(s[1..]) + multiset{p};
        assert r[k] in s[1..] || r[k] == p;
        if r[k] in s[1..] {
          var j :| 0 <= j < |s[1..]| && s[1..][j] == r[k];
          assert s[1 + j] == r[k];
        }
      }
    }
  }

  /** With distinct ids the sort is strictly increasing in id. */
  lemma {:induction false} SortStrict(ps: seq<Payment>)
    requires DistinctIds(ps)
    ensures StrictlySortedById(SortById(ps))
  {
    if ps != [] {
      assert DistinctIds(ps[1..]) by {
        forall i, j | 0 <= i < j < |ps[1..]| ensures ps[1..][i].id != ps[1..][j].id {
          assert ps[1 + i].id != ps[1 + j].id;
        }
      }
      SortStrict(ps[1..]);
      SortProperties(ps[1..]);
      forall q | q in SortById(ps[1..]) ensures q.id != ps[0].id {
        assert q in multiset(SortById(ps[1..]));
        assert q in ps[1..];
        var j :| 0 <= j < |ps[1..]| && ps[1..][j] == q;
        assert ps[1 + j] == q;
      }
      InsertStrict(ps[0], SortById(ps[1..]));
    }
  }

  lemma DropCommonHead(x: seq<Payment>, y: seq<Payment>)
    requires x != [] && y != [] && x[0] == y[0]
    requires multiset(x) == multiset(y)
    ensures multiset(x[1..]) == multiset(y[1..])
  {
    assert x == [x[0]] + x[1..];
    assert y == [y[0]] + y[1..];
    assert multiset(x[1..]) == multiset(x) - multiset{x[0]};
    assert multiset(y[1..]) == multiset(y) - multiset{y[0]};
  }

  /** The first entries of two strictly id-ordered sequences holding the same entries agree. */
  lemma SameHead(x: seq<Payment>, y: seq<Payment>)
    requires x != [] && y != []
    requires StrictlySortedById(x) && StrictlySortedById(y)
    requires multiset(x) == multiset(y)
    ensures x[0] == y[0]
  {
    assert x[0] in multiset(y);
    var j :| 0 <= j < |y| && y[j] == x[0];
    assert y[0] in multiset(x);
    var k :| 0 <= k < |x| && x[k] == y[0];
    assert x[0].id <= x[k].id;
    assert y[0].id <= y[j].id;
    assert k == 0;
  }

  /** Two strictly id-ordered sequences holding the same entries are equal. */
  lemma {:induction false} StrictlySortedUnique(x: seq<Payment>, y: seq<Payment>)
    requires StrictlySortedById(x) && StrictlySortedById(y)
    requires multiset(x) == multiset(y)
    ensures x == y
  {
    assert |x| == |multiset(x)| == |multiset(y)| == |y|;
    if x != [] {
      SameHead(x, y);
      DropCommonHead(x, y);
      StrictlySortedUnique(x[1..], y[1..]);
      assert x == [x[0]] + x[1..] && y == [y[0]] + y[1..];
    }
  }

  /** With distinct ids no entry occurs twice. */
  lemma {:induction false} DistinctNoRepeats(a: seq<Payment>)
    requires DistinctIds(a)
    ensures forall p :: multiset(a)[p] <= 1
  {
    if a != [] {
      var tail := a[1..];
      assert DistinctIds(tail) by {
        forall i, j | 0 <= i < j < |tail| ensures tail[i].id != tail[j].id {
          assert a[1 + i].id != a[1 + j].id;
        }
      }
      DistinctNoRepeats(tail);
      assert a == [a[0]] + tail;
      assert forall j :: 0 <= j < |tail| ==> tail[j].id != a[0].id by {
        forall j | 0 <= j < |tail| ensures tail[j].id != a[0].id {
          assert a[1 + j] == tail[j];
        }
      }
      assert a[0] !in tail;
      assert multiset(a) == multiset{a[0]} + multiset(tail);
    }
  }

  /** Distinctness of ids does not depend on the order of the entries. */
  lemma DistinctIdsPermutation(a: seq<Payment>, b: seq<Payment>)
    requires multiset(a) == multiset(b)
    requires DistinctIds(a)
    ensures DistinctIds(b)
  {
    DistinctNoRepeats(a);
    forall i, j | 0 <= i < j < |b| ensures b[i].id != b[j].id {
      assert b == b[..j] + b[j..];
      assert b[i] in multiset(b[..j]);
      assert b[j] in multiset(b[j..]);
      assert multiset(b)[b[i]] >= (if b[j] == b[i] then 2 else 1);
      assert b[i] != b[j];
      assert b[i] in multiset(a) && b[j] in multiset(a);
      var k :| 0 <= k < |a| && a[k] == b[i];
      var l :| 0 <= l < |a| && a[l] == b[j];
      if k < l {
        assert a[k].id != a[l].id;
      } else {
        assert a[l].id != a[k].id;
      }
    }
  }

  /**
   * Determinism under reordering: two reports holding the same entries with
   * distinct ids, in any order, are processed in the same order.
   */
  lemma SortIgnoresInputOrder(a: seq<Payment>, b: seq<Payment>)
    requires multiset(a) == multiset(b)
    requires DistinctIds(a)
    ensures SortById(a) == SortById(b)
  {
    DistinctIdsPermutation(a, b);
    SortStrict(a);
    SortStrict(b);
    SortProperties(a);
    SortProperties(b);
    StrictlySortedUnique(SortById(a), SortById(b));
  }
}

=== FILE: properties.dfy ===
/**
 * Properties of a reconciliation pass as a whole: the order in which entries
 * are processed and reported, what the pass does to the store, which events
 * it emits, how the order status is resolved, and that the pass is
 * deterministic and idempotent.
 */
module PassProperties {
  import opened Report
  import opened Ordering
  import opened Resolver
  import opened Store
  import opened Interface

  predicate SortedByPaymentId(lines: seq<PaymentLine>)
  {
    forall i, j :: 0 <= i < j < |lines| ==> lines[i].paymentId <= lines[j].paymentId
  }

  // ---------------------------------------------------------------------------
  // Reported lines and the candidate status

  /** The loop reports one line per entry, in entry order, holding that entry's values. */
  lemma {:induction false} RunLinesReported(st0: LoopState, ps: seq<Payment>, orderKey: string,
                                            decision: Option<OrderStatus>)
    requires WellKeyed(st0.lines)
    ensures var st := RunLines(st0, ps, orderKey, decision);
            && |st.reported| == |st0.reported| + |ps|
            && st.reported[..|st0.reported|] == st0.reported
            && forall j :: 0 <= j < |ps| ==>
                 st.reported[|st0.reported| + j].paymentId == ps[j].id
                 && Agrees(st.reported[|st0.reported| + j], ps[j])
  {
    if ps != [] {
      var init := ps[..|ps| - 1];
      RunLinesReported(st0, init, orderKey, decision);
      var prev := RunLines(st0, init, orderKey, decision);
      var st := RunLines(st0, ps, orderKey, decision);
      assert st.reported == prev.reported + [Upsert(prev.lines, orderKey, ps[|ps| - 1]).line];
      forall j | 0 <= j < |ps|
        ensures st.reported[|st0.reported| + j].paymentId == ps[j].id
        ensures Agrees(st.reported[|st0.reported| + j], ps[j])
      {
        if j < |ps| - 1 {
          assert ps[j] == init[j];
          assert st.reported[|st0.reported| + j] == prev.reported[|st0.reported| + j];
        }
      }
    }
  }

  /**
   * Processing order: the lines `_store_report_lines` returns follow the
   * entries sorted by id, one line per entry holding that entry's values, so
   * the list is sorted by payment id whatever order the report gave.
   */
  lemma ReportedLinesFollowSortedEntries(lines0: map<nat, PaymentLine>, orderKey: string, orderCurrency: string,
                                         current: OrderStatus, report: StatusReport, successMargins: map<string, int>)
    requires WellKeyed(lines0)
    requires report.payments != []
    ensures var r := LinesOutcome(lines0, orderKey, orderCurrency, current, report, successMargins);
            var sorted := SortById(report.payments);
            && |r.reported| == |report.payments|
            && (forall j :: 0 <= j < |r.reported| ==>
                  r.reported[j].paymentId == sorted[j].id && Agrees(r.reported[j], sorted[j]))
            && SortedByPaymentId(r.reported)
  {
    var sorted := SortById(report.payments);
    var decision := ProcessAuthorizedPayment(orderCurrency, report, successMargins);
    RunLinesReported(Start(lines0), sorted, orderKey, decision);
    SortProperties(report.payments);
  }

  /** The candidate status after the loop: the sub-decision, if any entry is AUTHORIZED. */
  lemma {:induction false} RunLinesCandidate(st0: LoopState, ps: seq<Payment>, orderKey: string,
                                             decision: Option<OrderStatus>)
    requires WellKeyed(st0.lines)
    ensures RunLines(st0, ps, orderKey, decision).candidate ==
              if decision.Some? && exists j :: 0 <= j < |ps| && IsAuthorized(ps[j]) then decision else st0.candidate
  {
    if ps != [] {
      var init := ps[..|ps| - 1];
      RunLinesCandidate(st0, init, orderKey, decision);
      if exists j :: 0 <= j < |init| && IsAuthorized(init[j]) {
        var j :| 0 <= j < |init| && IsAuthorized(init[j]);
        assert ps[j] == init[j];
      }
      if exists j :: 0 <= j < |ps| && IsAuthorized(ps[j]) {
        var j :| 0 <= j < |ps| && IsAuthorized(ps[j]);
        if j < |ps| - 1 {
          assert init[j] == ps[j];
        }
      }
    }
  }

  /** Whether some entry is AUTHORIZED does not depend on the order of the entries. */
  lemma SomeAuthorizedPermutation(a: seq<Payment>, b: seq<Payment>)
    requires multiset(a) == multiset(b)
    ensures (exists j :: 0 <= j < |a| && IsAuthorized(a[j])) <==> (exists p :: p in b && IsAuthorized(p))
  {
    if exists j :: 0 <= j < |a| && IsAuthorized(a[j]) {
      var j :| 0 <= j < |a| && IsAuthorized(a[j]);
      assert a[j] in multiset(b);
    }
    if exists p :: p in b && IsAuthorized(p) {
      var p :| p in b && IsAuthorized(p);
      assert p in multiset(a);
      var j :| 0 <= j < |a| && a[j] == p;
    }
  }

  /** The last entry in processing order is one of the report's, with the highest id. */
  lemma LastSortedIsHighest(ps: seq<Payment>)
    requires ps != []
    ensures var sorted := SortById(ps);
            && sorted[|sorted| - 1] in ps
            && forall p :: p in ps ==> p.id <= sorted[|sorted| - 1].id
  {
    var sorted := SortById(ps);
    SortProperties(ps);
    var last := sorted[|sorted| - 1];
    assert last in multiset(sorted);
    forall p | p in ps ensures p.id <= last.id {
      assert p in multiset(sorted);
      var j :| 0 <= j < |sorted| && sorted[j] == p;
    }
  }

  /**
   * Case B resolution. The sub-decision depends only on the report's totals
   * and the margin, so every AUTHORIZED entry yields the same one and the last
   * deciding AUTHORIZED entry sets it. When no entry decides, the status
   * mapping of the entry with the highest id decides.
   */
  lemma CaseBResolution(lines0: map<nat, PaymentLine>, orderKey: string, orderCurrency: string,
                        current: OrderStatus, report: StatusReport, successMargins: map<string, int>)
    requires WellKeyed(lines0)
    requires report.payments != []
    ensures var sorted := SortById(report.payments);
            var last := sorted[|sorted| - 1];
            var decision := ProcessAuthorizedPayment(orderCurrency, report, successMargins);
            && last in report.payments
            && (forall p :: p in report.payments ==> p.id <= last.id)
            && LinesOutcome(lines0, orderKey, orderCurrency, current, report, successMargins).status ==
                 if decision.Some? && exists p :: p in report.payments && IsAuthorized(p) then decision.value
                 else FallbackStatus(last.authorization.status, current)
  {
    var sorted := SortById(report.payments);
    var decision := ProcessAuthorizedPayment(orderCurrency, report, successMargins);
    LastSortedIsHighest(report.payments);
    SortProperties(report.payments);
    RunLinesCandidate(Start(lines0), sorted, orderKey, decision);
    SomeAuthorizedPermutation(sorted, report.payments);
    var st := RunLines(Start(lines0), sorted, orderKey, decision);
    assert LinesOutcome(lines0, orderKey, orderCurrency, current, report, successMargins).status ==
           if st.candidate.Some? then st.candidate.value
           else FallbackStatus(sorted[|sorted| - 1].authorization.status, current);
  }

  // ---------------------------------------------------------------------------
  // The store and the line events

  /** The payment ids of some entries. */
  function IdsOf(ps: seq<Payment>): set<nat>
  {
    set j | 0 <= j < |ps| :: ps[j].id
  }

  /** The store holds the entry's line with the reported values, under the order that created it. */
  predicate Recorded(lines: map<nat, PaymentLine>, lines0: map<nat, PaymentLine>, orderKey: string, p: Payment)
  {
    && p.id in lines
    && Agrees(lines[p.id], p)
    && lines[p.id].orderKey == (if p.id in lines0 then lines0[p.id].orderKey else orderKey)
  }

  /** The line of payment id `id` is as it was. */
  predicate Untouched(lines: map<nat, PaymentLine>, lines0: map<nat, PaymentLine>, id: nat)
  {
    (id in lines <==> id in lines0) && (id in lines0 ==> lines[id] == lines0[id])
  }

  /** Dropping the last entry keeps the ids distinct and removes exactly the last id. */
  lemma DistinctPrefix(ps: seq<Payment>)
    requires ps != [] && DistinctIds(ps)
    ensures DistinctIds(ps[..|ps| - 1])
    ensures ps[|ps| - 1].id !in IdsOf(ps[..|ps| - 1])
    ensures IdsOf(ps) == IdsOf(ps[..|ps| - 1]) + {ps[|ps| - 1].id}
  {
  }

  /** One upsert keeps the invariant of RunLinesStore. */
  lemma StoreStep(lines: map<nat, PaymentLine>, lines0: map<nat, PaymentLine>, orderKey: string,
                  init: seq<Payment>, p: Payment)
    requires WellKeyed(lines)
    requires p.id !in IdsOf(init)
    requires forall j :: 0 <= j < |init| ==> Recorded(lines, lines0, orderKey, init[j])
    requires forall id :: id !in IdsOf(init) ==> Untouched(lines, lines0, id)
    ensures var u := Upsert(lines, orderKey, p);
            && Recorded(u.lines, lines0, orderKey, p)
            && (forall j :: 0 <= j < |init| ==> Recorded(u.lines, lines0, orderKey, init[j]))
            && (forall id :: id !in IdsOf(init) && id != p.id ==> Untouched(u.lines, lines0, id))
  {
  }

  /**
   * Line upsert, over a whole loop with distinct ids: every entry's line is in
   * the store holding the reported values, under the order that created it;
   * lines of other payment ids are untouched.
   */
  lemma {:induction false} RunLinesStore(st0: LoopState, ps: seq<Payment>, orderKey: string,
                                         decision: Option<OrderStatus>)
    requires WellKeyed(st0.lines)
    requires DistinctIds(ps)
    ensures var st := RunLines(st0, ps, orderKey, decision);
            && (forall j :: 0 <= j < |ps| ==> Recorded(st.lines, st0.lines, orderKey, ps[j]))
            && (forall id :: id !in IdsOf(ps) ==> Untouched(st.lines, st0.lines, id))
  {
    if ps != [] {
      var init, p := ps[..|ps| - 1], ps[|ps| - 1];
      DistinctPrefix(ps);
      RunLinesStore(st0, init, orderKey, decision);
      var prev := RunLines(st0, init, orderKey, decision);
      var st := RunLines(st0, ps, orderKey, decision);
      assert st == LineStep(prev, p, orderKey, decision);
      StoreStep(prev.lines, st0.lines, orderKey, init, p);
      forall j | 0 <= j < |ps| ensures Recorded(st.lines, st0.lines, orderKey, ps[j]) {
        if j < |ps| - 1 { assert ps[j] == init[j]; }
      }
    }
  }

  /** The events of the loop are payment events, each classified against the store before the pass. */
  predicate ClassifiedAgainst(e: Event, lines0: map<nat, PaymentLine>)
  {
    || (e.PaymentAdded? && e.line.paymentId !in lines0)
    || (e.PaymentUpdated? && e.line.paymentId in lines0)
  }

  /**
   * The events of the loop, for entries with distinct ids: only payment
   * events, at most one per entry; payment_added exactly for the payment ids
   * the store did not hold before the pass, payment_updated only for ids it
   * held.
   */
  lemma {:induction false} RunLinesEvents(st0: LoopState, ps: seq<Payment>, orderKey: string,
                                          decision: Option<OrderStatus>)
    requires WellKeyed(st0.lines)
    requires DistinctIds(ps)
    requires st0.events == []
    ensures var st := RunLines(st0, ps, orderKey, decision);
            && |st.events| <= |ps|
            && (forall e :: e in st.events ==> ClassifiedAgainst(e, st0.lines))
            && (forall j :: 0 <= j < |ps| && ps[j].id !in st0.lines ==>
                  ps[j].id in st.lines && PaymentAdded(st.lines[ps[j].id]) in st.events)
  {
    if ps != [] {
      var init, p := ps[..|ps| - 1], ps[|ps| - 1];
      DistinctPrefix(ps);
      RunLinesEvents(st0, init, orderKey, decision);
      RunLinesStore(st0, init, orderKey, decision);
      var prev := RunLines(st0, init, orderKey, decision);
      var st := RunLines(st0, ps, orderKey, decision);
      var u := Upsert(prev.lines, orderKey, p);
      assert st == LineStep(prev, p, orderKey, decision);
      assert st.lines == u.lines && st.events == prev.events + EventList(u.event);
      assert Untouched(prev.lines, st0.lines, p.id);
      forall e | e in st.events ensures ClassifiedAgainst(e, st0.lines) {
        if e !in prev.events {
          assert e == u.event.value;
        }
      }
      forall j | 0 <= j < |ps| && ps[j].id !in st0.lines
        ensures ps[j].id in st.lines && PaymentAdded(st.lines[ps[j].id]) in st.events
      {
        if j < |ps| - 1 {
          assert ps[j] == init[j];
          assert ps[j].id in IdsOf(init);
          assert ps[j].id != p.id;
        }
      }
    }
  }

  /** An entry whose line already agrees with the report changes nothing and emits nothing. */
  lemma {:induction false} RunLinesQuiet(st0: LoopState, ps: seq<Payment>, orderKey: string,
                                         decision: Option<OrderStatus>)
    requires WellKeyed(st0.lines)
    requires forall j :: 0 <= j < |ps| ==> ps[j].id in st0.lines && Agrees(st0.lines[ps[j].id], ps[j])
    ensures RunLines(st0, ps, orderKey, decision).lines == st0.lines
    ensures RunLines(st0, ps, orderKey, decision).events == st0.events
  {
    if ps != [] {
      var init := ps[..|ps| - 1];
      forall j | 0 <= j < |init| ensures init[j] == ps[j] { }
      RunLinesQuiet(st0, init, orderKey, decision);
    }
  }

  /** A reordering of the entries mentions the same payment ids. */
  lemma IdsOfPermutation(a: seq<Payment>, b: seq<Payment>)
    requires multiset(a) == multiset(b)
    ensures IdsOf(a) == IdsOf(b)
  {
    forall id | id in IdsOf(a) ensures id in IdsOf(b) {
      var j :| 0 <= j < |a| && a[j].id == id;
      assert a[j] in multiset(b);
      var k :| 0 <= k < |b| && b[k] == a[j];
    }
    forall id | id in IdsOf(b) ensures id in IdsOf(a) {
      var j :| 0 <= j < |b| && b[j].id == id;
      assert b[j] in multiset(a);
      var k :| 0 <= k < |a| && a[k] == b[j];
    }
  }

  /**
   * Line upsert in a pass over a report with distinct payment ids: afterwards
   * the store holds one line per reported id with the reported values; new
   * lines belong to this order, existing lines keep their order; lines of
   * other ids are untouched; payment_added fires for every new id, and every
   * event is payment_added for a new id or payment_updated for a known one.
   */
  lemma PassUpsertsLines(lines0: map<nat, PaymentLine>, orderKey: string, orderCurrency: string,
                         current: OrderStatus, report: StatusReport, successMargins: map<string, int>)
    requires WellKeyed(lines0)
    requires report.payments != []
    requires DistinctIds(report.payments)
    ensures var r := LinesOutcome(lines0, orderKey, orderCurrency, current, report, successMargins);
            && WellKeyed(r.lines)
            && (forall p :: p in report.payments ==> Recorded(r.lines, lines0, orderKey, p))
            && (forall id :: id !in IdsOf(report.payments) ==> Untouched(r.lines, lines0, id))
            && |r.events| <= |report.payments|
            && (forall e :: e in r.events ==> ClassifiedAgainst(e, lines0))
            && (forall p :: p in report.payments && p.id !in lines0 ==>
                  p.id in r.lines && PaymentAdded(r.lines[p.id]) in r.events)
  {
    var sorted := SortById(report.payments);
    var decision := ProcessAuthorizedPayment(orderCurrency, report, successMargins);
    SortProperties(report.payments);
    DistinctIdsPermutation(report.payments, sorted);
    IdsOfPermutation(report.payments, sorted);
    RunLinesStore(Start(lines0), sorted, orderKey, decision);
    RunLinesEvents(Start(lines0), sorted, orderKey, decision);
    var st := RunLines(Start(lines0), sorted, orderKey, decision);
    forall p | p in report.payments
      ensures Recorded(st.lines, lines0, orderKey, p)
      ensures p.id !in lines0 ==> p.id in st.lines && PaymentAdded(st.lines[p.id]) in st.events
    {
      assert p in multiset(sorted);
      var j :| 0 <= j < |sorted| && sorted[j] == p;
    }
  }

  /**
   * The lines part of a replay: a second pass over the store the first one
   * left, with the status the first one decided, leaves the store alone, emits
   * no line event and decides the same status.
   */
  lemma ReplayLines(lines0: map<nat, PaymentLine>, orderKey: string, orderCurrency: string,
                    current: OrderStatus, report: StatusReport, successMargins: map<string, int>)
    requires WellKeyed(lines0)
    requires report.payments != []
    requires DistinctIds(report.payments)
    ensures var r1 := LinesOutcome(lines0, orderKey, orderCurrency, current, report, successMargins);
            && WellKeyed(r1.lines)
            && var r2 := LinesOutcome(r1.lines, orderKey, orderCurrency, r1.status, report, successMargins);
            && r2.lines == r1.lines && r2.events == [] && r2.status == r1.status
  {
    var sorted := SortById(report.payments);
    var decision := ProcessAuthorizedPayment(orderCurrency, report, successMargins);
    SortProperties(report.payments);
    DistinctIdsPermutation(report.payments, sorted);
    RunLinesStore(Start(lines0), sorted, orderKey, decision);
    var st1 := RunLines(Start(lines0), sorted, orderKey, decision);
    forall j | 0 <= j < |sorted| ensures sorted[j].id in st1.lines && Agrees(st1.lines[sorted[j].id], sorted[j]) {
      assert Recorded(st1.lines, lines0, orderKey, sorted[j]);
    }
    RunLinesQuiet(Start(st1.lines), sorted, orderKey, decision);
    RunLinesCandidate(Start(lines0), sorted, orderKey, decision);
    RunLinesCandidate(Start(st1.lines), sorted, orderKey, decision);
    FallbackIsStable(sorted[|sorted| - 1].authorization.status, current);
  }

  // ---------------------------------------------------------------------------
  // The status of the whole pass

  /** Without payment entries, a second pass with the same inputs leaves the status where the first put it. */
  lemma NoPaymentReplayStable(t: Totals, current: OrderStatus, intended: Option<StatusValue>, created: int, now: int)
    ensures var first := AssignedStatus(current, NoPaymentStatus(t, current, intended, created, now));
            AssignedStatus(first, NoPaymentStatus(t, first, intended, created, now)) == first
  {
  }

  /**
   * Idempotence: replaying the same report (same time, same intended status)
   * on the order and store a pass has just produced emits no event and
   * changes nothing. The report's payment ids are distinct.
   */
  lemma ReplayIsSilent(lines0: map<nat, PaymentLine>, orderKey: string, orderCurrency: string,
                       created: int, current: OrderStatus, report: StatusReport,
                       intended: Option<StatusValue>, now: int, successMargins: map<string, int>)
    requires WellKeyed(lines0)
    requires DistinctIds(report.payments)
    ensures var first := PassOutcome(lines0, orderKey, orderCurrency, created, current, report, intended, now, successMargins);
            && WellKeyed(first.lines)
            && var second := PassOutcome(first.lines, orderKey, orderCurrency, created, first.status, report,
                                         intended, now, successMargins);
            && second.events == []
            && second.lines == first.lines
            && second.status == first.status
  {
    if report.payments == [] {
      NoPaymentReplayStable(report.approximateTotals, current, intended, created, now);
    } else {
      ReplayLines(lines0, orderKey, orderCurrency, current, report, successMargins);
    }
  }

  /**
   * Determinism under reordering: the same report with its payment entries
   * permuted (distinct ids) gives the same status, store and events.
   */
  lemma PassIgnoresEntryOrder(lines0: map<nat, PaymentLine>, orderKey: string, orderCurrency: string,
                              created: int, current: OrderStatus, a: StatusReport, b: StatusReport,
                              intended: Option<StatusValue>, now: int, successMargins: map<string, int>)
    requires WellKeyed(lines0)
    requires a.approximateTotals == b.approximateTotals
    requires multiset(a.payments) == multiset(b.payments)
    requires DistinctIds(a.payments)
    ensures PassOutcome(lines0, orderKey, orderCurrency, created, current, a, intended, now, successMargins)
            == PassOutcome(lines0, orderKey, orderCurrency, created, current, b, intended, now, successMargins)
  {
    assert |a.payments| == |multiset(a.payments)| == |multiset(b.payments)| == |b.payments|;
    SortIgnoresInputOrder(a.payments, b.payments);
    MarginIgnoresOrder(orderCurrency, a.approximateTotals, a.payments, b.payments, successMargins);
    assert ProcessAuthorizedPayment(orderCurrency, a, successMargins)
           == ProcessAuthorizedPayment(orderCurrency, b, successMargins);
    if a.payments != [] {
      assert LinesOutcome(lines0, orderKey, orderCurrency, current, a, successMargins)
             == LinesOutcome(lines0, orderKey, orderCurrency, current, b, successMargins);
    }
  }

  /**
   * Non-regression: an EXPIRED or CANCELLED order never goes back to NEW or
   * IN_PROGRESS unless the caller asks for it, provided an EXPIRED order is
   * older than the expiry age. ExpiredOnlyWhenOld shows that every pass keeps
   * this so unless a caller asked for EXPIRED; YoungExpiredOrderReturnsToNew
   * shows what happens to a younger EXPIRED order.
   */
  lemma NoRegressionFromTerminal(lines0: map<nat, PaymentLine>, orderKey: string, orderCurrency: string,
                                 created: int, current: OrderStatus, report: StatusReport,
                                 intended: Option<StatusValue>, now: int, successMargins: map<string, int>)
    requires WellKeyed(lines0)
    requires current in {Expired, Cancelled}
    requires current == Expired ==> IsOld(created, now)
    requires intended !in {Some(Recognized(New)), Some(Recognized(InProgress))}
    ensures PassOutcome(lines0, orderKey, orderCurrency, created, current, report, intended, now, successMargins).status
            !in {New, InProgress}
  {
    if report.payments != [] {
      var sorted := SortById(report.payments);
      var decision := ProcessAuthorizedPayment(orderCurrency, report, successMargins);
      RunLinesCandidate(Start(lines0), sorted, orderKey, decision);
    }
  }

  /**
   * A pass leaves an order EXPIRED only when it is more than 21 days old at the
   * time of the pass, or when the caller asked for EXPIRED. An order that was
   * EXPIRED and old at an earlier pass is still old, so the assumption of
   * NoRegressionFromTerminal is kept by every pass unless a caller asks for
   * EXPIRED.
   */
  lemma ExpiredOnlyWhenOld(lines0: map<nat, PaymentLine>, orderKey: string, orderCurrency: string,
                           created: int, current: OrderStatus, report: StatusReport,
                           intended: Option<StatusValue>, earlier: int, now: int, successMargins: map<string, int>)
    requires WellKeyed(lines0)
    requires earlier <= now
    requires current == Expired ==> IsOld(created, earlier)
    ensures PassOutcome(lines0, orderKey, orderCurrency, created, current, report, intended, now, successMargins).status
              == Expired
            ==> IsOld(created, now) || intended == Some(Recognized(Expired))
  {
    if report.payments != [] {
      var sorted := SortById(report.payments);
      var decision := ProcessAuthorizedPayment(orderCurrency, report, successMargins);
      RunLinesCandidate(Start(lines0), sorted, orderKey, decision);
    }
  }

  /**
   * An EXPIRED order no older than 21 days, reported without payments and
   * without activity, is sent back to NEW: the no-payment heuristics keep only
   * CANCELLED as it is.
   */
  lemma YoungExpiredOrderReturnsToNew(lines0: map<nat, PaymentLine>, orderKey: string, orderCurrency: string,
                                      created: int, t: Totals, now: int, successMargins: map<string, int>)
    requires WellKeyed(lines0)
    requires NoActivity(t) && !IsOld(created, now)
    ensures PassOutcome(lines0, orderKey, orderCurrency, created, Expired, StatusReport(t, []), None, now,
                        successMargins).status == New
  {
  }

  /**
   * Whatever the store and the entries, ids repeated or not: each entry adds
   * at most one event to the loop's list, after the events already there, and
   * never an order_status_changed one.
   */
  lemma {:induction false} RunLinesAppendsPaymentEvents(st0: LoopState, ps: seq<Payment>, orderKey: string,
                                                        decision: Option<OrderStatus>)
    requires WellKeyed(st0.lines)
    ensures var st := RunLines(st0, ps, orderKey, decision);
            && |st0.events| <= |st.events| <= |st0.events| + |ps|
            && st.events[..|st0.events|] == st0.events
            && (forall i :: |st0.events| <= i < |st.events| ==> !st.events[i].OrderStatusChanged?)
  {
    if ps != [] {
      var init := ps[..|ps| - 1];
      RunLinesAppendsPaymentEvents(st0, init, orderKey, decision);
      var prev := RunLines(st0, init, orderKey, decision);
      var u := Upsert(prev.lines, orderKey, ps[|ps| - 1]);
      var st := RunLines(st0, ps, orderKey, decision);
      assert st.events == prev.events + EventList(u.event);
      assert st.events[..|prev.events|] == prev.events;
      assert st.events[..|st0.events|] == prev.events[..|st0.events|];
    }
  }

  /**
   * The events of a pass, for any report: payment events first, at most one
   * per entry; then order_status_changed, last and only when the status
   * really changed.
   */
  lemma PassEventOrder(lines0: map<nat, PaymentLine>, orderKey: string, orderCurrency: string,
                       created: int, current: OrderStatus, report: StatusReport,
                       intended: Option<StatusValue>, now: int, successMargins: map<string, int>)
    requires WellKeyed(lines0)
    ensures var r := PassOutcome(lines0, orderKey, orderCurrency, created, current, report, intended, now, successMargins);
            && |r.events| <= |report.payments| + 1
            && (forall i :: 0 <= i < |r.events| - 1 ==> !r.events[i].OrderStatusChanged?)
            && (r.status != current <==> r.events != [] && r.events[|r.events| - 1] == OrderStatusChanged(current, r.status))
  {
    if report.payments != [] {
      var sorted := SortById(report.payments);
      var decision := ProcessAuthorizedPayment(orderCurrency, report, successMargins);
      RunLinesAppendsPaymentEvents(Start(lines0), sorted, orderKey, decision);
      var r := PassOutcome(lines0, orderKey, orderCurrency, created, current, report, intended, now, successMargins);
      var lr := LinesOutcome(lines0, orderKey, orderCurrency, current, report, successMargins);
      assert r.events == lr.events + StatusChangedEvents(current, r.status);
    }
  }
}

=== FILE: report.dfy ===
/**
 * The values exchanged with the Docdata gateway and the order statuses of the
 * local store: a status report (approximate totals plus payment entries), the
 * gateway's authorization status codes and the order status choices.
 *
 * Every amount is an integer count of minor units (hundredths).
 */
module Report {

  datatype Option<T> = None | Some(value: T)

  /** The choices of DocdataOrder.status. */
  datatype OrderStatus =
    | New | InProgress | Pending | Paid | PaidRefunded | Refunded
    | Cancelled | ChargedBack | Expired | Unknown

  /**
   * A status handed to the status assignment. The intended status of a pass is
   * supplied by the caller and may be any string, so besides the recognised
   * choices there is a catch-all carrying a string outside them.
   */
  datatype StatusValue = Recognized(status: OrderStatus) | Unrecognized(raw: string)

  /**
   * The authorization status of a payment entry: the DocdataClient status
   * constants that the status mapping table is keyed by, and any other string
   * the gateway sends. A reported status is read as OtherStatus only when it
   * is none of the constants, so `raw` never spells one of them.
   */
  datatype AuthStatus =
    | StatusNew
    | StatusStarted
    | StatusRedirectedForAuthentication
    | StatusAuthorizationRequested
    | StatusAuthorized
    | StatusPaid
    | StatusCancelled
    | StatusChargedBack
    | StatusConfirmedPaid
    | StatusConfirmedChargedback
    | StatusClosedSuccess
    | StatusClosedCancelled
    | OtherStatus(raw: string)

  /** The status a capture or refund item carries when it succeeded. */
  const CapturedStatus: string := "CAPTURED"
  /** The status a chargeback item carries when it succeeded. */
  const ChargedStatus: string := "CHARGED"

  /** The approximateTotals block of a report, in minor units, with its exchanged-to currency tag. */
  datatype Totals = Totals(
    registered: int,
    shopperPending: int,
    acquirerPending: int,
    acquirerApproved: int,
    captured: int,
    refunded: int,
    chargedback: int,
    exchangedTo: string)

  datatype Amount = Amount(value: int, currency: string)

  /** One capture, refund or chargeback element of an authorization. */
  datatype SubItem = SubItem(status: string, amount: Amount)

  /** An absent capture, refund or chargeback block is the empty sequence. */
  datatype Authorization = Authorization(
    status: AuthStatus,
    amount: Amount,
    confidenceLevel: string,
    capture: seq<SubItem>,
    refund: seq<SubItem>,
    chargeback: seq<SubItem>)

  /** One payment entry of a report; `id` is the gateway's positive payment id. */
  datatype Payment = Payment(id: nat, paymentMethod: string, authorization: Authorization)

  /** A status report; a report without payment entries has the empty sequence. */
  datatype StatusReport = StatusReport(approximateTotals: Totals, payments: seq<Payment>)
}

=== FILE: resolver.dfy ===
/**
 * The order status resolver: the pure decisions that turn the totals of a
 * report and the authorization status of its payment entries into a new
 * order status.
 */
module Resolver {
  import opened Report

  /** The age after which an order without any payment activity expires: 21 days, in microseconds. */
  const ExpiryAge: int := 21 * 24 * 60 * 60 * 1000000

  /**
   * `Interface.status_mapping.get(status, STATUS_UNKNOWN)`: the order status a
   * gateway status code stands for when no totals decide.
   */
  function StatusMapping(s: AuthStatus): (r: OrderStatus)
    ensures r == Unknown <==> s.OtherStatus?
    ensures r in {New, InProgress, Pending, Paid, Cancelled, ChargedBack, Unknown}
    ensures r == New <==> s == StatusNew || s == StatusStarted
    ensures r == InProgress <==> s == StatusRedirectedForAuthentication
    ensures r == Cancelled <==> s == StatusCancelled || s == StatusClosedCancelled
    ensures r == ChargedBack <==> s == StatusChargedBack || s == StatusConfirmedChargedback
    ensures r == Paid <==> s == StatusConfirmedPaid || s == StatusClosedSuccess
    ensures r == Pending <==> s == StatusAuthorizationRequested || s == StatusAuthorized || s == StatusPaid
  {
    match s
    case StatusNew => New
    case StatusStarted => New
    case StatusRedirectedForAuthentication => InProgress
    case StatusAuthorizationRequested => Pending
    case StatusAuthorized => Pending
    case StatusPaid => Pending
    case StatusCancelled => Cancelled
    case StatusChargedBack => ChargedBack
    case StatusConfirmedPaid => Paid
    case StatusConfirmedChargedback => ChargedBack
    case StatusClosedSuccess => Paid
    case StatusClosedCancelled => Cancelled
    case OtherStatus(_) => Unknown
  }

  /**
   * The order was paid through a currency conversion: its currency is the
   * totals' exchanged-to currency and some payment was authorised in another one.
   */
  predicate HasConversion(orderCurrency: string, totals: Totals, payments: seq<Payment>)
  {
    && orderCurrency == totals.exchangedTo
    && exists p :: p in payments && p.authorization.amount.currency != orderCurrency
  }

  /**
   * The tolerance, in minor units, by which the captured total may fall short
   * of the registered total and still count as paid. `successMargins` is the
   * per-currency margin setting.
   */
  function Margin(orderCurrency: string, totals: Totals, payments: seq<Payment>,
                  successMargins: map<string, int>): (m: int)
    ensures m != 0 ==> HasConversion(orderCurrency, totals, payments)
    ensures m != 0 ==> totals.exchangedTo in successMargins && m == successMargins[totals.exchangedTo]
    ensures m != 0 ==> m < totals.registered
    ensures HasConversion(orderCurrency, totals, payments) && totals.exchangedTo in successMargins
            && successMargins[totals.exchangedTo] < totals.registered
            ==> m == successMargins[totals.exchangedTo]
  {
    if orderCurrency == totals.exchangedTo
       && exists p :: p in payments && p.authorization.amount.currency != orderCurrency
    then
      var configured := if totals.exchangedTo in successMargins then successMargins[totals.exchangedTo] else 0;
      if configured >= totals.registered then 0 else configured
    else
      0
  }

  /** The margin depends on which payments the report holds, not on their order. */
  lemma MarginIgnoresOrder(orderCurrency: string, totals: Totals, a: seq<Payment>, b: seq<Payment>,
                           successMargins: map<string, int>)
    requires multiset(a) == multiset(b)
    ensures Margin(orderCurrency, totals, a, successMargins) == Margin(orderCurrency, totals, b, successMargins)
  {
    forall p ensures p in a <==> p in b {
      assert p in a <==> p in multiset(a);
      assert p in b <==> p in multiset(b);
    }
  }

  /**
   * `_process_authorized_payment` once the margin is known: compares the
   * captured, refunded and charged-back totals with the registered total.
   * None means no clearly detectable status.
   */
  function AuthorizedDecision(t: Totals, margin: int): (r: Option<OrderStatus>)
    ensures var threshold, sum := t.registered - margin, t.captured - t.chargedback - t.refunded;
      && (r.None? <==>
            t.captured < threshold
            || (sum == 0 < threshold && t.captured != t.chargedback && t.captured != t.refunded))
      && (r == Some(Paid) <==> threshold <= t.captured && threshold <= sum)
      && (r == Some(PaidRefunded) <==> threshold <= t.captured && 0 < sum < threshold)
      && (r == Some(Unknown) <==> threshold <= t.captured && sum < 0 && sum < threshold)
      && (r == Some(Refunded) <==> threshold <= t.captured && sum == 0 < threshold && t.captured == t.refunded)
      && (r == Some(ChargedBack) <==>
            threshold <= t.captured && sum == 0 < threshold
            && t.captured == t.chargedback && t.captured != t.refunded)
    ensures r.Some? ==> r.value in {Paid, ChargedBack, Refunded, PaidRefunded, Unknown}
  {
    var threshold := t.registered - margin;
    if t.captured < threshold then None
    else
      var paymentSum := t.captured - t.chargedback - t.refunded;
      if paymentSum >= threshold then Some(Paid)
      else if paymentSum == 0 then
        var chargedBack := if t.captured == t.chargedback then Some(ChargedBack) else None;
        if t.captured == t.refunded then Some(Refunded) else chargedBack
      else if paymentSum > 0 then Some(PaidRefunded)
      else Some(Unknown)
  }

  /** The sub-decision of an AUTHORIZED payment entry, margin included. */
  function ProcessAuthorizedPayment(orderCurrency: string, report: StatusReport,
                                    successMargins: map<string, int>): (r: Option<OrderStatus>)
    ensures var t := report.approximateTotals;
            var threshold := t.registered - Margin(orderCurrency, t, report.payments, successMargins);
            && (r.Some? ==> threshold <= t.captured)
            && (r == Some(Paid) <==> threshold <= t.captured && threshold <= t.captured - t.chargedback - t.refunded)
    ensures var t := report.approximateTotals;
            !HasConversion(orderCurrency, t, report.payments) ==>
              (r.Some? ==> t.registered <= t.captured)
              && (r == Some(Paid) ==> t.registered <= t.captured - t.chargedback - t.refunded)
    ensures r.Some? ==> r.value in {Paid, ChargedBack, Refunded, PaidRefunded, Unknown}
  {
    var totals := report.approximateTotals;
    AuthorizedDecision(totals, Margin(orderCurrency, totals, report.payments, successMargins))
  }

  /**
   * A full reversal is never ambiguous: REFUNDED is decided only when nothing
   * was charged back and CHARGED_BACK only when nothing was refunded, so the
   * order in which the two checks run never decides the outcome.
   */
  lemma FullReversalIsUnambiguous(t: Totals, margin: int)
    ensures AuthorizedDecision(t, margin) == Some(Refunded) ==>
              t.chargedback == 0 && 0 < t.refunded == t.captured
    ensures AuthorizedDecision(t, margin) == Some(ChargedBack) ==>
              t.refunded == 0 && 0 < t.chargedback == t.captured
    ensures !(t.captured == t.chargedback == t.refunded && AuthorizedDecision(t, margin).Some?
              && AuthorizedDecision(t, margin).value in {Refunded, ChargedBack})
  {
  }

  /**
   * PAID_REFUNDED means the full amount was captured and part of it was
   * refunded or charged back afterwards.
   */
  lemma PaidRefundedIsPartialReversal(t: Totals, margin: int)
    requires AuthorizedDecision(t, margin) == Some(PaidRefunded)
    ensures t.registered - margin <= t.captured
    ensures 0 < t.refunded + t.chargedback < t.captured
  {
  }

  /**
   * A full reversal split between a refund and a chargeback decides nothing:
   * the resolver then falls back to the status mapping.
   */
  lemma MixedReversalIsUndecided(t: Totals, margin: int)
    requires 0 < t.registered - margin <= t.captured
    requires 0 < t.refunded && 0 < t.chargedback && t.refunded + t.chargedback == t.captured
    ensures AuthorizedDecision(t, margin) == None
  {
  }

  /** Worked cases of the decision table. */
  lemma DecisionExamples(currency: string)
    ensures AuthorizedDecision(Totals(1000, 0, 0, 0, 1000, 0, 0, currency), 0) == Some(Paid)
    ensures AuthorizedDecision(Totals(1000, 0, 0, 0, 1000, 200, 0, currency), 0) == Some(PaidRefunded)
    ensures AuthorizedDecision(Totals(1000, 0, 0, 0, 1000, 0, 1000, currency), 0) == Some(ChargedBack)
    ensures AuthorizedDecision(Totals(1000, 0, 0, 0, 1000, 1000, 0, currency), 0) == Some(Refunded)
    ensures AuthorizedDecision(Totals(1000, 0, 0, 0, 400, 0, 0, currency), 0) == None
    ensures AuthorizedDecision(Totals(1000, 0, 0, 0, 960, 0, 0, currency), 50) == Some(Paid)
    ensures AuthorizedDecision(Totals(1000, 0, 0, 0, 900, 0, 0, currency), 50) == None
  {
  }

  /**
   * The fallback when no AUTHORIZED payment entry decides: the mapping of the
   * last entry's status, except that an EXPIRED or CANCELLED order is not sent
   * back to NEW or IN_PROGRESS.
   */
  function FallbackStatus(last: AuthStatus, current: OrderStatus): (r: OrderStatus)
    ensures current in {Expired, Cancelled} ==> r !in {New, InProgress}
    ensures current !in {Expired, Cancelled} ==> r == StatusMapping(last)
    ensures r != StatusMapping(last) ==> r == current && StatusMapping(last) in {New, InProgress}
  {
    var mapped := StatusMapping(last);
    if current in {Expired, Cancelled} && mapped in {New, InProgress} then current else mapped
  }

  /** Applying the fallback to its own result changes nothing. */
  lemma FallbackIsStable(last: AuthStatus, current: OrderStatus)
    ensures FallbackStatus(last, FallbackStatus(last, current)) == FallbackStatus(last, current)
  {
  }

  /** Python's `intended or fallback`: a missing or empty intended status gives way. */
  function OrElse(intended: Option<StatusValue>, fallback: OrderStatus): StatusValue
  {
    if intended.Some? && intended.value != Unrecognized("") then intended.value else Recognized(fallback)
  }

  /** All six non-registered totals are zero: no payment activity at all. */
  predicate NoActivity(t: Totals)
  {
    && t.shopperPending == 0
    && t.acquirerPending == 0
    && t.acquirerApproved == 0
    && t.captured == 0
    && t.refunded == 0
    && t.chargedback == 0
  }

  /** The order was created more than 21 days before `now`. */
  predicate IsOld(created: int, now: int)
  {
    created < now - ExpiryAge
  }

  /**
   * The heuristics for a report without payment entries (timestamps in
   * microseconds; `intended` is the status the caller asks for, as the cancel
   * flow does).
   */
  function NoPaymentStatus(t: Totals, current: OrderStatus, intended: Option<StatusValue>,
                           created: int, now: int): (r: StatusValue)
    ensures current == Cancelled ==> r == Recognized(Cancelled)
    ensures current == Expired && !NoActivity(t) ==> r == Recognized(Expired)
    ensures current != Cancelled && NoActivity(t) ==>
              r == OrElse(intended, if IsOld(created, now) then Expired else New)
    ensures current !in {Expired, Cancelled} && !NoActivity(t) ==> r == OrElse(intended, New)
  {
    if NoActivity(t) then
      if current == Cancelled then Recognized(current)
      else if IsOld(created, now) then OrElse(intended, Expired)
      else OrElse(intended, New)
    else if current in {Expired, Cancelled} then Recognized(current)
    else OrElse(intended, New)
  }

  /**
   * Without an intended status, a report without payments moves an order to
   * EXPIRED only when it has no payment activity and is more than 21 days old.
   */
  lemma ExpiresOnlyInactiveOldOrders(t: Totals, current: OrderStatus, created: int, now: int)
    requires current != Expired
    ensures NoPaymentStatus(t, current, None, created, now) == Recognized(Expired) <==>
              current != Cancelled && NoActivity(t) && IsOld(created, now)
  {
  }
}

=== FILE: store.dfy ===
/**
 * The persisted state a reconciliation pass works on: the Docdata order, the
 * payment lines kept per gateway payment id, and the change events a pass
 * emits.
 */
module Store {
  import opened Report

  /** One DocdataPayment row; amounts in minor units. */
  datatype PaymentLine = PaymentLine(
    orderKey: string,
    paymentId: nat,
    paymentMethod: string,
    confidenceLevel: string,
    amountAllocated: int,
    amountDebited: int,
    amountRefunded: int,
    amountChargeback: int,
    status: AuthStatus)

  /** The payment_added, payment_updated and order_status_changed signals. */
  datatype Event =
    | PaymentAdded(line: PaymentLine)
    | PaymentUpdated(line: PaymentLine)
    | OrderStatusChanged(oldStatus: OrderStatus, newStatus: OrderStatus)

  /** The totals stored on the order, in minor units. */
  datatype TotalsSnapshot = TotalsSnapshot(
    registered: int,
    shopperPending: int,
    acquirerPending: int,
    acquirerApproved: int,
    captured: int,
    refunded: int,
    chargedBack: int)

  /** Every row is filed under its own payment id: at most one line per payment id. */
  predicate WellKeyed(lines: map<nat, PaymentLine>)
  {
    forall id :: id in lines ==> lines[id].paymentId == id
  }

  datatype SaveResult = SaveResult(lines: map<nat, PaymentLine>, added: bool)

  /**
   * Saving a line: an insert when `adding`, which on a uniqueness conflict
   * (a row with the same payment id already exists) becomes an update of that
   * row and is no longer reported as an insert.
   */
  function SaveLine(lines: map<nat, PaymentLine>, line: PaymentLine, adding: bool): SaveResult
  {
    if adding && line.paymentId !in lines then SaveResult(lines[line.paymentId := line], true)
    else SaveResult(lines[line.paymentId := line], false)
  }

  /**
   * Two passes that both found no line for a new payment id and both insert
   * one: whichever saves first inserts, the other turns into an update, so
   * there is one row for the id, holding the later write, and exactly one of
   * the two reports an insert.
   */
  lemma CreateRaceAddsOnce(lines: map<nat, PaymentLine>, first: PaymentLine, second: PaymentLine)
    requires WellKeyed(lines)
    requires first.paymentId == second.paymentId && first.paymentId !in lines
    ensures var r1 := SaveLine(lines, first, true);
            var r2 := SaveLine(r1.lines, second, true);
            && r1.added && !r2.added
            && WellKeyed(r2.lines)
            && r2.lines == lines[second.paymentId := second]
  {
  }

  /**
   * Saving a line as interface.py lines 416-428 are written: on a uniqueness
   * conflict the warning at line 422 formats two placeholders with one
   * argument, which raises before the fallback update runs (None).
   */
  function SaveLineAsWritten(lines: map<nat, PaymentLine>, line: PaymentLine, adding: bool): (r: Option<SaveResult>)
    ensures r.None? <==> adding && line.paymentId in lines
    ensures r.Some? ==> r.value == SaveLine(lines, line, adding)
  {
    if adding && line.paymentId in lines then None else Some(SaveLine(lines, line, adding))
  }

  /**
   * As written, the second of two racing inserts for the same new payment id
   * raises instead of turning into an update.
   */
  lemma CreateRaceRaisesAsWritten(lines: map<nat, PaymentLine>, first: PaymentLine, second: PaymentLine)
    requires WellKeyed(lines)
    requires first.paymentId == second.paymentId && first.paymentId !in lines
    ensures var r1 := SaveLineAsWritten(lines, first, true);
            && r1.Some? && r1.value.added
            && SaveLineAsWritten(r1.value.lines, second, true).None?
  {
  }

  /** A DocdataOrder: identity fields fixed, status and totals updated by a pass. */
  class DocdataOrder {
    const orderKey: string
    const currency: string
    /** Creation time, in microseconds. */
    const created: int
    var status: OrderStatus
    var totals: TotalsSnapshot

    constructor (orderKey: string, currency: string, created: int)
      ensures this.orderKey == orderKey && this.currency == currency
      ensures this.created == created
      ensures status == New && totals == TotalsSnapshot(0, 0, 0, 0, 0, 0, 0)
    {
      this.orderKey := orderKey;
      this.currency := currency;
      this.created := created;
      status := New;
      totals := TotalsSnapshot(0, 0, 0, 0, 0, 0, 0);
    }
  }

  /** The DocdataPayment table, looked up by payment id. */
  class PaymentStore {
    var lines: map<nat, PaymentLine>

    ghost predicate Valid()
      reads this
    {
      WellKeyed(lines)
    }

    constructor ()
      ensures Valid() && lines == map[]
    {
      lines := map[];
    }

    /** The line for a payment id, if there is one. */
    method Get(paymentId: nat) returns (r: Option<PaymentLine>)
      requires Valid()
      ensures r.Some? <==> paymentId in lines
      ensures r.Some? ==> r.value == lines[paymentId] && r.value.paymentId == paymentId
    {
      r := if paymentId in lines then Some(lines[paymentId]) else None;
    }

    /** Insert or update one line; `added` says whether it was inserted. */
    method Save(line: PaymentLine, adding: bool) returns (added: bool)
      requires Valid()
      modifies this
      ensures Valid()
      ensures SaveResult(lines, added) == SaveLine(old(lines), line, adding)
    {
      added := adding && line.paymentId !in lines;
      lines := lines[line.paymentId := line];
    }
  }
}
